=== FILE: README.md ===
# Scheduling probes in Dafny

A model of the two scheduling-probe programs `sched` and `sched_nice`.
Each probe validates its command line (worker count, total time and
resolution in milliseconds). It calibrates a busy loop once to learn how
many iterations take one millisecond, then forks workers in index order.
Each worker burns one resolution's worth of iterations per sample, stores
a monotonic-clock reading per sample in its private log, and prints one
line per sample: its spawn index, the elapsed milliseconds since a shared
start reading, and a progress percentage. When a fork fails, the parent
interrupts the workers created so far with SIGINT. In every case it waits
once per created worker. It exits successfully exactly when the command
line is accepted, both allocations succeed and every fork succeeds. `sched_nice` is the same program with two workers, where
worker 1 calls `nice(5)` before sampling.

Both programs are one model, parameterised by `Config.Variant`
(`Probe` for `sched`, `NicedProbe` for `sched_nice`). The operating system
is an input. `Orchestrator.Env` supplies:

- the outcome of each `malloc`;
- the readings around the calibration loop and the start reading;
- the result of each `fork`;
- whether each `kill` and each `wait` succeeds;
- each worker's successive clock readings.

The output is an ordered trace of events for the parent and one trace per
worker.

Files and modules:

- `base.dfy` (`Base`): the `Result` and exit-status types, plus `Select`, which keeps the events of one kind in order.
- `arith.dfy` (`Arith`): small facts about multiplication and floor division.
- `clock.dfy` (`Clock`): `struct timespec`, `diff_nsec`, and the elapsed milliseconds printed in a report line.
- `calibration.dfy` (`Calibration`): the arithmetic of `loops_per_msec` and `loops_per_msec() * resol`.
- `config.dfy` (`Config`): the argument checks of both programs and `nrecord = total / resol`.
- `progress.dfy` (`Progress`): the progress percentage of a report line.
- `worker.dfy` (`Worker`): `child_fn` (the sampling loop, the report records and the worker's event trace) and the niced worker's `nice` call.
- `orchestrator.dfy` (`Orchestrator`): `main` (the allocations, the fan-out, the SIGINT rollback, the waits and the exit status).
- `percent_overflow.dfy` (`PercentOverflow`): the progress percentage in 32-bit `int` arithmetic, as written (see Findings).

A failed `wait` only prints a warning and leaves the exit status unchanged
(`sched.c:156-158`). So `Orchestrator.Run` succeeds exactly when the command
line is accepted, both allocations succeed and every fork succeeds.

## Model

| member | source | states |
|---|---|---|
| Clock.DiffNsec | sched.c:16-20 | the difference is linear in the seconds and nanoseconds fields, and is zero for equal readings |
| Clock.DiffNsecAdditive | sched.c:16-20 | differences add up along a chain of readings: diff(a,c) = diff(a,b) + diff(b,c) |
| Clock.DiffNsecAntisymmetric | sched.c:16-20 | swapping the two readings negates the difference |
| Clock.DiffNsecOrder | sched.c:16-20 | on normalised readings, the difference is non-negative iff the first reading is not later than the second, and zero iff they are equal |
| Clock.ElapsedMs | sched.c:69 | the printed milliseconds are the floor of the nanosecond difference divided by 1e6 whenever that difference is in [0, 2^64), and always below 2^64/1e6 + 1 |
| Clock.ElapsedMsMonotone | sched.c:69 | for two readings at or after start and less than 2^64 ns after it, the later one never prints a smaller elapsed time |
| Clock.ElapsedMsBackwards | sched.c:69 | because the division is unsigned, a reading earlier than start by at most 2^63 ns prints at least 2^63/1e6 ms, never a negative time |
| Calibration.LoopsPerMsec | sched.c:23-43 | the rate is the floor of 1e9 iterations per elapsed nanoseconds, scaled to one millisecond: rate*elapsed <= 1e15 < (rate+1)*elapsed; defined only for elapsed > 0 |
| Calibration.LoopsPerMsecAntitone | sched.c:42 | a calibration that takes longer never yields a higher rate |
| Calibration.NloopPerResol | sched.c:123 | the per-resolution count is rate*resol taken modulo 2^64; without wrap-around it is exactly rate*resol |
| Calibration.NloopPerResolBound | sched.c:123 | without wrap-around, running the per-resolution count takes at most resol milliseconds at the calibrated rate |
| Config.Validate | sched.c:85-116 | a run is accepted iff the arguments are present and nproc, total and resol are all >= 1 with total a multiple of resol. Each refusal names the first failing check. On acceptance nrecord >= 1 and nrecord*resol == total; for the niced variant nproc is 2 and there is no nproc check |
| Config.NicedRejections | sched_nice.c:70-94 | the niced probe refuses exactly: fewer than two arguments, total < 1, resol < 1, or total not a multiple of resol |
| Config.ValidateExamples | sched.c:110-116 | `sched 2 100 20` samples 5 times, `sched 1 7 2` is refused as not a multiple, and `sched_nice 200 50` samples 4 times |
| Progress.Percent | sched.c:69 | progress of sample i is the floor of (i+1)*100/nrecord (p*nrecord <= (i+1)*100 < (p+1)*nrecord), and lies in 0..100 |
| Progress.PercentLast | sched.c:69 | the last sample reports exactly 100 percent |
| Progress.PercentMonotone | sched.c:68-69 | progress never decreases with the sample index |
| Progress.PercentFiveSamples | sched.c:69 | five samples report 20, 40, 60, 80 and 100 percent |
| Worker.Report | sched.c:68-69 | the report has exactly one line per log slot; `ReportLines`, `ReportProgress` and `ReportElapsedMonotone` state the contents of each line |
| Worker.ReportLines | sched.c:69 | line i carries the spawn index, the elapsed time of reading i as the floor of its nanosecond distance from start divided by 1e6 (whenever that distance is in [0, 2^64)), and the floor of (i+1)*100/nrecord as its percentage |
| Worker.ReportProgress | sched.c:68-69 | every report line carries the spawn index, not a pid; percentages stay in 0..100, never decrease, and end at exactly 100 |
| Worker.ReportElapsedMonotone | sched.c:55-69 | if the readings never run backwards and none is before start, the printed elapsed times never decrease |
| Worker.SampleEventsShape | sched.c:55-61 | the sampling loop strictly alternates a load of nloop iterations and a store of reading k into slot k |
| Worker.SampleEventsStores | sched.c:55-61 | the sampling loop stores into slots 0, 1, ..., n-1 in increasing order, each exactly once, with one load per slot and no printing |
| Worker.WorkerTraceActions | sched.c:52-71 | over a worker's whole life, the stores are exactly slot k gets reading k in order, the loads are n loads of nloop, and the printed lines are exactly the report |
| Worker.WorkerTracePhases | sched.c:52-71 | a worker only moves forward through renice, sampling, reporting and exit; it renices, first, iff it is the lowered worker; its last act is exit |
| Worker.SampleLoop | sched.c:55-61 | the sampling loop keeps the buffer's length and overwrites every slot k with the k-th clock reading, whatever the slot held before; its events are one load then one store per slot |
| Worker.ReportLoop | sched.c:68-69 | the reporting loop prints exactly the report, one line per slot in slot order |
| Worker.RunWorker | sched_nice.c:123-127 | a worker (with the niced probe's `nice` call first when it is the lowered one) keeps the buffer's length, fills slot k with its k-th clock reading, and follows exactly the worker trace |
| Orchestrator.ForkFailureFrom | sched.c:138-147 | scanning from index i, the result is the first failing fork, or nproc; every fork before it succeeded |
| Orchestrator.FirstForkFailure | sched.c:137-147 | ncreated is the index of the first failing fork, or nproc if none fails |
| Orchestrator.FirstForkFailureUnique | sched.c:137-147 | any count that has every earlier fork succeeding, and a failure at the count (unless it is nproc), equals ncreated |
| Orchestrator.ForkLoop | sched.c:137-147 | forks go in index order until nproc or the first failure; the pids kept are exactly the successful results; worker j is spawned with spawn index j; failure iff fewer than nproc were created |
| Orchestrator.InterruptLoop | sched.c:151-154 | SIGINT goes to every created pid in order, whatever each kill returns |
| Orchestrator.WaitLoop | sched.c:156-158 | one wait per created worker, whatever each wait returns |
| Orchestrator.FanOut | sched.c:137-158 | the created pids are the first ncreated fork results, and the run is a success iff every fork succeeded. The events satisfy `FanOutTrace`: worker j is spawned with spawn index j, the shared nrecord, the calibrated count and the start reading, and the pid of fork j, and lowers its priority iff it is index 1 of the niced probe; the failed fork appears once, only on failure; SIGINT goes to exactly the created pids in order, and only after a fork failure; wait j carries the outcome of the j-th wait; failed kills and waits shorten nothing; there are exactly ncreated + (1 + ncreated if a fork failed) + ncreated events, nothing but spawns, the failed fork, interrupts and waits, in that order |
| Orchestrator.FanOutSpawns | sched.c:138-147 | the spawns of the assembled fan-out are exactly the fork loop's, worker j with its own parameters and the pid of fork j |
| Orchestrator.FanOutRollback | sched.c:141-154 | the assembled fan-out holds the failed fork iff a fork failed, and SIGINT to exactly the created pids in order only then |
| Orchestrator.FanOutReaps | sched.c:156-158 | the assembled fan-out holds one wait per created worker, wait j with the j-th outcome |
| Orchestrator.FanOutShape | sched.c:137-158 | the assembled fan-out has exactly as many events as the loops made, nothing but fan-out events, in stage order |
| Orchestrator.SpecFor | sched_nice.c:124-127 | worker i is handed its spawn index, the shared sample count, the calibrated loop count and the shared start reading (the arguments of `child_fn` at sched.c:145); it lowers its priority iff it is spawn index 1 of the niced probe, never in the plain probe |
| Orchestrator.ReniceOnlyAtNicedIndex | sched_nice.c:123-127 | a worker renices as its first act iff it is spawn index 1 of the niced probe, and never later |
| Orchestrator.RunWorkers | sched.c:140-146 | each created worker j follows the worker trace for its own spec and its own clock readings, and together they print ncreated*nrecord lines |
| Orchestrator.Launch | sched.c:122-158 | ncreated is the index of the first failing fork, the pids kept are exactly the results of forks 0..ncreated-1, and the result is success iff all nproc forks succeeded; the two estimation lines come first, the run stays in stage order, and everything after them is exactly the fan-out trace (`FanOutTrace`: spawns, the failed fork, SIGINT rollback and waits with their outcomes, and nothing else) |
| Orchestrator.SuccessfulLaunchTrace | sched.c:137-158 | when every fork succeeds, the run after the estimation lines has exactly 2*nproc events: nproc spawns and nproc waits, wait j carrying the j-th outcome, with no failed fork and no SIGINT |
| Orchestrator.WithEstimation | sched.c:122-124 | the two estimation lines come first, before any fork event, and the stage order of the run is kept; the rest is the fan-out unchanged, so the spawns, failed forks, interrupts and waits are exactly those of the fan-out |
| Orchestrator.Run | sched.c:82-163 | a refused command line, a failed log allocation or a failed pid-table allocation each stops the run with failure before any fork, and each emits exactly its own events. Otherwise the two estimation lines come first and the rest is exactly the fan-out trace (`FanOutTrace`) for the one calibrated count and start reading; each created worker follows its own worker trace. The exit status is success iff the command line is accepted, both allocations succeed and every fork succeeds, and then nproc*nrecord report lines appear |
| PercentOverflow.Int32Wrap | sched.c:69 | the wrapped value lies in the 32-bit `int` range and differs from the mathematical value by a multiple of 2^32, which pins it down uniquely |
| PercentOverflow.CDiv | sched.c:69 | the quotient truncates toward zero: the remainder is smaller than the divisor in magnitude and never has the opposite sign of the dividend |
| PercentOverflow.PercentAsWritten | sched.c:69 | the percentage in 32-bit int arithmetic equals the intended one while (i+1)*100 fits an int |
| PercentOverflow.PercentAsWrittenOverflows | sched.c:69 | `sched 1 30000000 1` is accepted, yet its last line shows -43% where 100% is intended |
| PercentOverflow.PercentAsWrittenAgrees | sched_nice.c:54 | with at most 21 474 836 samples the as-written percentage is the intended one |

## Left out

- The busy loops of `load` and of the calibration are not executed. A worker's trace records only the iteration count of each load, and the calibration is reduced to the two readings that bracket its loop.
- `clock_gettime`, `fork`, `kill`, `wait`, `malloc` and `nice` are inputs (`Orchestrator.Env`) or trace events, not operating-system behaviour.
- The real effect of SIGINT on a worker is not modelled. A worker trace is the trace the worker follows when it runs to completion, which is why the line count is stated only for successful runs.
- Concurrency, the interleaving of the workers' output lines, and scheduler fairness are left out. Whether the niced worker progresses more slowly is not modelled.
- `atoi` parsing and the `printf`/`warn`/`err` texts are left out. Arguments are already-parsed integers, report lines are `Worker.Record`s, and diagnostics are events.
- `parent_fn` is never called by either program.
- `fork.c` and `fork_and_exec.c` are not part of this model: they are single fork/exec demonstrations.
- Worker.Report: prints the intended percentage `Progress.Percent`. With more than 21 474 836 samples the C program prints a different, wrapped value; `PercentOverflow` models that value (see Findings).
- Clock.DiffNsec: computed with mathematical integers. The C `long` result wraps once the difference exceeds 2^63 ns (about 292 years).
- Calibration.LoopsPerMsec: divides the mathematical difference and requires it to be positive. C divides by the difference converted to `unsigned long`, and a zero difference is a division by zero.
- Orchestrator.Run: requires a positive calibration interval whenever the run reaches calibration, for the reason above.
- The size computations `nrecord * sizeof(struct timespec)` and `nproc * sizeof(pid_t)` in the `malloc` calls are not modelled. Their overflow is left out; the allocation outcome is an input.

## Findings

| source | as written | input that shows it | evidently intended | confidence | as-written member | corrected member |
|---|---|---|---|---|---|---|
| sched.c:69 | `(i + 1) * 100 / nrecord` (also at sched_nice.c:54) is evaluated in 32-bit `int`, so the product overflows once nrecord > 21 474 836 | `sched 1 30000000 1`: the last line has (i+1)*100 = 3 000 000 000 > INT_MAX | the progress percentage floor((i+1)*100/nrecord), ending at 100 | not executed; the overflow is certain, and the printed -43 assumes two's-complement wrap-around of the undefined signed overflow | PercentOverflow.PercentAsWrittenOverflows | Progress.Percent |

=== FILE: arith.dfy ===
/** Facts about integer multiplication and floor division used by the model. */
module Arith {

  /** Floor division by a positive divisor is monotone. */
  lemma DivMonotone(x: int, y: int, k: nat)
    requires 0 <= x <= y && k > 0
    ensures x / k <= y / k
  {
    var qx, qy := x / k, y / k;
    assert qx * k <= x <= y < (qy + 1) * k;
    MulCancel(qx, qy + 1, k);
  }

  /** Cancelling a positive factor from a strict product inequality. */
  lemma MulCancel(a: int, b: int, k: nat)
    requires k > 0 && a * k < b * k
    ensures a < b
  {
  }

  /** Multiplying by a non-negative factor keeps the order. */
  lemma MulMonotone(a: nat, x: int, y: int)
    requires x <= y
    ensures a * x <= a * y
  {
    assert a * y - a * x == a * (y - x);
  }

  /**
   * A quotient of a fixed dividend `c` never grows with the divisor: if
   * `r2` fits `c` with the larger divisor `d2` and `r1 + 1` overshoots it
   * with the smaller `d1`, then `r2 <= r1`.
   */
  lemma QuotientAntitone(c: int, r1: int, r2: nat, d1: nat, d2: nat)
    requires 0 < d1 <= d2
    requires r2 * d2 <= c < (r1 + 1) * d1
    ensures r2 <= r1
  {
    MulMonotone(r2, d1, d2);
    assert r2 * d1 == d1 * r2 && r2 * d2 == d2 * r2;
    MulCancel(r2, r1 + 1, d1);
  }

  /** Quotient and remainder of floor division by a positive divisor. */
  lemma FloorDiv(a: nat, b: nat)
    requires b > 0
    ensures (a / b) * b <= a < (a / b + 1) * b
  {
    assert a == (a / b) * b + a % b;
  }
}

=== FILE: base.dfy ===
/** Small shared vocabulary: an error-carrying result and a process exit status. */
module Base {

  /** Either a value or the error that stopped the computation. */
  datatype Result<+T, +E> = Success(value: T) | Failure(error: E)

  /** `EXIT_SUCCESS` or `EXIT_FAILURE` as passed to `exit`. */
  datatype ExitStatus = ExitSuccess | ExitFailure

  /**
   * The elements of `s` that satisfy `keep`, in their original order.  The
   * contract bounds the result; `SelectCounts` states that every qualifying
   * element is kept as often as it occurs and every other one dropped.
   */
  function Select<T>(s: seq<T>, keep: T -> bool): (r: seq<T>)
    ensures |r| <= |s|
    ensures forall i :: 0 <= i < |r| ==> keep(r[i])
    decreases |s|
  {
    if |s| == 0 then []
    else Select(s[..|s| - 1], keep) + (if keep(s[|s| - 1]) then [s[|s| - 1]] else [])
  }

  /** Selection keeps each qualifying value exactly as often as it occurs in `s`. */
  lemma {:induction false} SelectCounts<T(!new)>(s: seq<T>, keep: T -> bool)
    ensures forall x :: multiset(Select(s, keep))[x] == if keep(x) then multiset(s)[x] else 0
    decreases |s|
  {
    if |s| > 0 {
      var init := s[..|s| - 1];
      assert s == init + [s[|s| - 1]];
      SelectCounts(init, keep);
    }
  }

  /** Selection distributes over concatenation. */
  lemma {:induction false} SelectConcat<T>(a: seq<T>, b: seq<T>, keep: T -> bool)
    ensures Select(a + b, keep) == Select(a, keep) + Select(b, keep)
    decreases |b|
  {
    if |b| == 0 {
      assert a + b == a;
    } else {
      var b' := b[..|b| - 1];
      assert (a + b)[..|a + b| - 1] == a + b';
      SelectConcat(a, b', keep);
    }
  }

  /** Selection from three concatenated runs. */
  lemma SelectThree<T>(a: seq<T>, b: seq<T>, c: seq<T>, keep: T -> bool)
    ensures Select(a + b + c, keep) == Select(a, keep) + Select(b, keep) + Select(c, keep)
  {
    SelectConcat(a + b, c, keep);
    SelectConcat(a, b, keep);
  }

  /** Selection from four concatenated runs. */
  lemma SelectFour<T>(a: seq<T>, b: seq<T>, c: seq<T>, d: seq<T>, keep: T -> bool)
    ensures Select(a + b + c + d, keep) == Select(a, keep) + Select(b, keep) + Select(c, keep) + Select(d, keep)
  {
    SelectConcat(a + b + c, d, keep);
    SelectThree(a, b, c, keep);
  }

  /**
   * Selection from four runs, each of which is uniformly kept (`ka`, `kb`,
   * `kc`, `kd`) or uniformly dropped: the result is the kept runs in order.
   */
  lemma SelectRuns<T>(a: seq<T>, b: seq<T>, c: seq<T>, d: seq<T>, keep: T -> bool,
                      ka: bool, kb: bool, kc: bool, kd: bool)
    requires forall i :: 0 <= i < |a| ==> keep(a[i]) == ka
    requires forall i :: 0 <= i < |b| ==> keep(b[i]) == kb
    requires forall i :: 0 <= i < |c| ==> keep(c[i]) == kc
    requires forall i :: 0 <= i < |d| ==> keep(d[i]) == kd
    ensures Select(a + b + c + d, keep)
            == (if ka then a else []) + (if kb then b else []) + (if kc then c else []) + (if kd then d else [])
  {
    var ra := if ka then a else [];
    var rb := if kb then b else [];
    var rc := if kc then c else [];
    var rd := if kd then d else [];
    SelectRun(a, keep, ka);
    SelectRun(b, keep, kb);
    SelectRun(c, keep, kc);
    SelectRun(d, keep, kd);
    assert Select(a, keep) == ra && Select(b, keep) == rb;
    assert Select(c, keep) == rc && Select(d, keep) == rd;
    SelectFour(a, b, c, d, keep);
  }

  /** A uniformly kept run is kept whole; a uniformly dropped one vanishes. */
  lemma SelectRun<T>(s: seq<T>, keep: T -> bool, k: bool)
    requires forall i :: 0 <= i < |s| ==> keep(s[i]) == k
    ensures Select(s, keep) == if k then s else []
  {
    if k {
      SelectAll(s, keep);
    } else {
      SelectNone(s, keep);
    }
  }

  /** Nothing is selected from a sequence none of whose elements qualify. */
  lemma {:induction false} SelectNone<T>(s: seq<T>, keep: T -> bool)
    requires forall i :: 0 <= i < |s| ==> !keep(s[i])
    ensures Select(s, keep) == []
    decreases |s|
  {
    if |s| > 0 {
      SelectNone(s[..|s| - 1], keep);
    }
  }

  /** Everything is selected from a sequence all of whose elements qualify. */
  lemma {:induction false} SelectAll<T>(s: seq<T>, keep: T -> bool)
    requires forall i :: 0 <= i < |s| ==> keep(s[i])
    ensures Select(s, keep) == s
    decreases |s|
  {
    if |s| > 0 {
      SelectAll(s[..|s| - 1], keep);
      assert s[..|s| - 1] + [s[|s| - 1]] == s;
    }
  }
}

=== FILE: calibration.dfy ===
/**
 * The calibration arithmetic of `loops_per_msec` and the per-resolution
 * iteration count `main` derives from it. The busy loop itself is not
 * modelled: only the two clock readings that bracket it matter.
 */
module Calibration {
  import opened Arith
  import opened Clock

  /** Iterations of the calibration busy loop. */
  const NLOOP_FOR_ESTIMATION: nat := 1_000_000_000

  /**
   * `loops_per_msec()`: estimated busy-loop iterations per millisecond,
   * `NLOOP_FOR_ESTIMATION * NSECS_PER_MSEC / diff_nsec(before, after)`,
   * where `before` and `after` bracket the calibration loop. The C code
   * divides by the difference, so it needs the loop to take some time.
   */
  function LoopsPerMsec(before: Timespec, after: Timespec): (rate: nat)
    requires DiffNsec(before, after) > 0
    ensures rate * DiffNsec(before, after) <= NLOOP_FOR_ESTIMATION * NSECS_PER_MSEC
    ensures NLOOP_FOR_ESTIMATION * NSECS_PER_MSEC < (rate + 1) * DiffNsec(before, after)
  {
    NLOOP_FOR_ESTIMATION * NSECS_PER_MSEC / DiffNsec(before, after)
  }

  /** A slower calibration loop never yields a higher rate. */
  lemma LoopsPerMsecAntitone(b1: Timespec, a1: Timespec, b2: Timespec, a2: Timespec)
    requires 0 < DiffNsec(b1, a1) <= DiffNsec(b2, a2)
    ensures LoopsPerMsec(b2, a2) <= LoopsPerMsec(b1, a1)
  {
    QuotientAntitone(NLOOP_FOR_ESTIMATION * NSECS_PER_MSEC, LoopsPerMsec(b1, a1), LoopsPerMsec(b2, a2),
                     DiffNsec(b1, a1), DiffNsec(b2, a2));
  }

  /**
   * `loops_per_msec() * resol`: the `int` resolution is converted to
   * `unsigned long`, so the product wraps modulo 2^64.
   */
  function NloopPerResol(rate: nat, resol: nat): (n: nat)
    ensures n < ULONG_MODULUS
    ensures rate * resol < ULONG_MODULUS ==> n == rate * resol
  {
    (rate * resol) % ULONG_MODULUS
  }

  /**
   * Without wrap-around, the per-resolution count is the calibrated
   * number of iterations that take at most `resol` milliseconds.
   */
  lemma NloopPerResolBound(before: Timespec, after: Timespec, resol: nat)
    requires DiffNsec(before, after) > 0
    requires LoopsPerMsec(before, after) * resol < ULONG_MODULUS
    ensures NloopPerResol(LoopsPerMsec(before, after), resol) * DiffNsec(before, after)
            <= NLOOP_FOR_ESTIMATION * NSECS_PER_MSEC * resol
  {
    var d, r := DiffNsec(before, after), LoopsPerMsec(before, after);
    assert NloopPerResol(r, resol) == r * resol;
    assert (r * resol) * d == (r * d) * resol;
    assert (r * d) * resol <= (NLOOP_FOR_ESTIMATION * NSECS_PER_MSEC) * resol by {
      assert (NLOOP_FOR_ESTIMATION * NSECS_PER_MSEC - r * d) * resol >= 0;
    }
  }
}

=== FILE: clock.dfy ===
/**
 * Monotonic-clock readings (`struct timespec`) and the nanosecond
 * arithmetic both probes perform on them (`diff_nsec` and the elapsed
 * milliseconds printed in each report line).
 */
module Clock {
  import opened Arith

  const NSECS_PER_SEC: nat := 1_000_000_000
  const NSECS_PER_MSEC: nat := 1_000_000

  /** 2^64, the modulus of `unsigned long` arithmetic on an LP64 target. */
  const ULONG_MODULUS: nat := 0x1_0000_0000_0000_0000

  /** 2^63, one past the largest `long`. */
  const LONG_LIMIT: nat := 0x8000_0000_0000_0000

  /** A `struct timespec`: whole seconds and nanoseconds. */
  datatype Timespec = Timespec(sec: int, nsec: int)

  /** A normalised reading, as `clock_gettime` returns: nanoseconds in [0, 1e9). */
  predicate Normal(t: Timespec) {
    0 <= t.nsec < NSECS_PER_SEC
  }

  /** Lexicographic "not later than" on readings. */
  predicate NotAfter(a: Timespec, b: Timespec) {
    a.sec < b.sec || (a.sec == b.sec && a.nsec <= b.nsec)
  }

  /**
   * `diff_nsec(before, after)`: the nanoseconds from `before` to `after`.
   * Mathematical integers; the C value is this one while it fits a `long`.
   */
  function DiffNsec(before: Timespec, after: Timespec): (d: int)
    ensures d == (after.sec - before.sec) * NSECS_PER_SEC + (after.nsec - before.nsec)
    ensures before == after ==> d == 0
  {
    (after.sec * NSECS_PER_SEC + after.nsec) - (before.sec * NSECS_PER_SEC + before.nsec)
  }

  /** Differences compose along a chain of readings. */
  lemma DiffNsecAdditive(a: Timespec, b: Timespec, c: Timespec)
    ensures DiffNsec(a, c) == DiffNsec(a, b) + DiffNsec(b, c)
  {
  }

  /** Swapping the readings negates the difference. */
  lemma DiffNsecAntisymmetric(a: Timespec, b: Timespec)
    ensures DiffNsec(b, a) == -DiffNsec(a, b)
  {
  }

  /** On normalised readings the sign of the difference is the clock order. */
  lemma DiffNsecOrder(a: Timespec, b: Timespec)
    requires Normal(a) && Normal(b)
    ensures NotAfter(a, b) <==> DiffNsec(a, b) >= 0
    ensures a == b <==> DiffNsec(a, b) == 0
  {
    var ds := b.sec - a.sec;
    if ds >= 1 {
      assert ds * NSECS_PER_SEC >= NSECS_PER_SEC;
    } else if ds <= -1 {
      assert ds * NSECS_PER_SEC <= -(NSECS_PER_SEC as int);
    } else {
      assert ds == 0;
    }
  }

  /**
   * The elapsed milliseconds a report line prints:
   * `diff_nsec(start, t) / NSECS_PER_MSEC`. The divisor is `unsigned long`,
   * so the `long` difference is converted to `unsigned long` first, which
   * takes it modulo 2^64 (exactly, whatever wrap-around happened before).
   */
  function ElapsedMs(start: Timespec, t: Timespec): (ms: nat)
    ensures ms < ULONG_MODULUS / NSECS_PER_MSEC + 1
    ensures 0 <= DiffNsec(start, t) < ULONG_MODULUS ==>
              ms * NSECS_PER_MSEC <= DiffNsec(start, t) < (ms + 1) * NSECS_PER_MSEC
  {
    (DiffNsec(start, t) % ULONG_MODULUS) / NSECS_PER_MSEC
  }

  /** Later readings never print a smaller elapsed time. */
  lemma ElapsedMsMonotone(start: Timespec, a: Timespec, b: Timespec)
    requires 0 <= DiffNsec(start, a) <= DiffNsec(start, b) < ULONG_MODULUS
    ensures ElapsedMs(start, a) <= ElapsedMs(start, b)
  {
    var da, db := DiffNsec(start, a), DiffNsec(start, b);
    assert da % ULONG_MODULUS == da && db % ULONG_MODULUS == db;
    DivMonotone(da, db, NSECS_PER_MSEC);
  }

  /**
   * A reading earlier than `start` (a difference that fits a `long` but is
   * negative) is not printed as a negative time: the unsigned conversion
   * turns it into at least 2^63 / 1e6 milliseconds.
   */
  lemma ElapsedMsBackwards(start: Timespec, t: Timespec)
    requires -(LONG_LIMIT as int) <= DiffNsec(start, t) < 0
    ensures ElapsedMs(start, t) >= LONG_LIMIT / NSECS_PER_MSEC
  {
    var d := DiffNsec(start, t);
    assert d % ULONG_MODULUS == d + ULONG_MODULUS;
    DivMonotone(LONG_LIMIT, d + ULONG_MODULUS, NSECS_PER_MSEC);
  }
}

=== FILE: config.dfy ===
/**
 * Command-line validation of the two probes and the sample count derived
 * from it. Arguments are modelled after `atoi`: `args` holds the parsed
 * user arguments, so the C `argc` is `|args| + 1`.
 */
module Config {
  import opened Base

  /** `sched` takes the worker count; `sched_nice` fixes it at two and renices one worker. */
  datatype Variant = Probe | NicedProbe

  /** Worker count of the niced probe. */
  const NICED_NPROC: nat := 2
  /** The spawn index whose worker lowers its priority in the niced probe. */
  const NICED_INDEX: nat := 1
  /** The increment that worker passes to `nice`. */
  const NICE_INCREMENT: int := 5

  /** User arguments the variant needs (`argc - 1`). */
  function Arity(v: Variant): nat {
    match v
    case Probe => 3
    case NicedProbe => 2
  }

  /** Why the command line was refused; each carries the values printed. */
  datatype ArgError =
    | Usage
    | NprocTooSmall(nproc: int)
    | TotalTooSmall(total: int)
    | ResolTooSmall(resol: int)
    | NotMultiple(total: int, resol: int)

  /** An accepted run: worker count, total and resolution in ms, and the sample count. */
  datatype Plan = Plan(nproc: nat, total: nat, resol: nat, nrecord: nat)

  /** Worker count, total and resolution as the variant reads them from `args`. */
  function Requested(v: Variant, args: seq<int>): (int, int, int)
    requires |args| >= Arity(v)
  {
    match v
    case Probe => (args[0], args[1], args[2])
    case NicedProbe => (NICED_NPROC, args[0], args[1])
  }

  /** The conditions under which a run goes ahead. */
  ghost predicate Acceptable(v: Variant, args: seq<int>) {
    && |args| >= Arity(v)
    && var (nproc, total, resol) := Requested(v, args);
    && nproc >= 1 && total >= 1 && resol >= 1
    && total % resol == 0
  }

  /**
   * The argument checks of `main`, in source order, and
   * `nrecord = total / resol` on acceptance.
   */
  function Validate(v: Variant, args: seq<int>): (res: Result<Plan, ArgError>)
    ensures res.Success? <==> Acceptable(v, args)
    ensures res.Success? ==>
              && (res.value.nproc, res.value.total, res.value.resol) == Requested(v, args)
              && res.value.nrecord >= 1
              && res.value.nrecord * res.value.resol == res.value.total
    ensures res == Failure(Usage) <==> |args| < Arity(v)
    ensures |args| >= Arity(v) ==>
              var (nproc, total, resol) := Requested(v, args);
              && (res == Failure(NprocTooSmall(nproc)) <==> nproc < 1)
              && (res == Failure(TotalTooSmall(total)) <==> nproc >= 1 && total < 1)
              && (res == Failure(ResolTooSmall(resol)) <==> nproc >= 1 && total >= 1 && resol < 1)
              && (res == Failure(NotMultiple(total, resol)) <==>
                    nproc >= 1 && total >= 1 && resol >= 1 && total % resol != 0)
    ensures v == NicedProbe && res.Success? ==> res.value.nproc == NICED_NPROC
    ensures v == NicedProbe && res.Failure? ==> !res.error.NprocTooSmall?
  {
    if |args| < Arity(v) then Failure(Usage)
    else
      var (nproc, total, resol) := Requested(v, args);
      if nproc < 1 then Failure(NprocTooSmall(nproc))
      else if total < 1 then Failure(TotalTooSmall(total))
      else if resol < 1 then Failure(ResolTooSmall(resol))
      else if total % resol != 0 then Failure(NotMultiple(total, resol))
      else Success(Plan(nproc, total, resol, total / resol))
  }

  /** The niced probe is refused only for arity, total, resolution or divisibility. */
  lemma NicedRejections(args: seq<int>)
    ensures Validate(NicedProbe, args).Failure? <==>
              |args| < 2 || args[0] < 1 || args[1] < 1 || args[0] % args[1] != 0
  {
  }

  /** Examples: `sched 2 100 20` samples five times; `sched 1 7 2` is refused. */
  lemma ValidateExamples()
    ensures Validate(Probe, [2, 100, 20]) == Success(Plan(2, 100, 20, 5))
    ensures Validate(Probe, [1, 7, 2]) == Failure(NotMultiple(7, 2))
    ensures Validate(NicedProbe, [200, 50]) == Success(Plan(2, 200, 50, 4))
  {
  }
}

=== FILE: orchestrator.dfy ===
/**
 * `main` of both probes: validation, the log-buffer allocation, one
 * calibration, the pid-table allocation, the start reading, the fan-out
 * of workers in index order, the rollback that interrupts the created
 * workers after a failed `fork`, the waits, and the exit status.
 * Every operating-system call is an input taken from an `Env`.
 */
module Orchestrator {
  import opened Base
  import opened Clock
  import opened Calibration
  import opened Config
  import opened Worker

  /** A child's process id as the parent sees it; 0 is what the child itself sees. */
  type Pid = x: nat | x > 0 witness 1

  /** What `fork` returns in the parent: the child's pid, or -1. */
  datatype ForkOutcome = Forked(pid: Pid) | ForkError

  /** The outcomes of the calls `main` and its workers make. */
  datatype Env = Env(
    logAllocOk: bool,                 // malloc(logbuf) succeeds
    calibBefore: Timespec,            // readings bracketing the calibration loop
    calibAfter: Timespec,
    pidsAllocOk: bool,                // malloc(pids) succeeds
    start: Timespec,                  // the reading taken just before fan-out
    fork: nat -> ForkOutcome,         // outcome of the fork for spawn index i
    kill: nat -> bool,                // kill(pids[i], SIGINT) succeeds
    wait: nat -> bool,                // the j-th wait(NULL) succeeds
    reading: (nat, nat) -> Timespec)  // k-th clock reading taken by worker i

  /** What the parent does, in order. */
  datatype Event =
    | Rejected(err: ArgError)           // usage or validation message, exit
    | LogAllocFailed                    // err(): message, exit
    | EstimationBegun                   // first progress line
    | EstimationEnded                   // second progress line
    | PidsAllocFailed                   // warn(), then release the log buffer
    | Spawned(spec: WorkerSpec, pid: Pid)
    | ForkFailed(index: nat)            // fork returned -1 for this spawn index
    | Interrupted(pid: Pid, ok: bool)   // kill(pid, SIGINT); a warning when !ok
    | Reaped(ok: bool)                  // wait(NULL); a warning when !ok

  predicate IsSpawn(e: Event) { e.Spawned? }
  predicate IsForkFailure(e: Event) { e.ForkFailed? }
  predicate IsInterrupt(e: Event) { e.Interrupted? }
  predicate IsReap(e: Event) { e.Reaped? }

  /** The events of the fan-out: spawns, the failed fork, interrupts and waits. */
  predicate IsFanOutEvent(e: Event) {
    IsSpawn(e) || IsForkFailure(e) || IsInterrupt(e) || IsReap(e)
  }

  /** Stage of a parent event; a run only moves forward through them. */
  function Stage(e: Event): nat {
    match e
    case Rejected(_) => 0
    case LogAllocFailed => 0
    case EstimationBegun => 0
    case EstimationEnded => 1
    case PidsAllocFailed => 2
    case Spawned(_, _) => 2
    case ForkFailed(_) => 3
    case Interrupted(_, _) => 4
    case Reaped(_) => 5
  }

  ghost predicate InStageOrder(events: seq<Event>) {
    forall i, j :: 0 <= i <= j < |events| ==> Stage(events[i]) <= Stage(events[j])
  }

  /** Spawn index at or after `i` of the first failing fork, or `nproc`. */
  function ForkFailureFrom(fork: nat -> ForkOutcome, i: nat, nproc: nat): (k: nat)
    requires i <= nproc
    ensures i <= k <= nproc
    ensures forall j :: i <= j < k ==> fork(j).Forked?
    ensures k < nproc ==> fork(k).ForkError?
    decreases nproc - i
  {
    if i == nproc then nproc
    else if fork(i).ForkError? then i
    else ForkFailureFrom(fork, i + 1, nproc)
  }

  /** `ncreated`: the index of the first failing fork, or `nproc` if none fails. */
  function FirstForkFailure(fork: nat -> ForkOutcome, nproc: nat): (k: nat)
    ensures k <= nproc
    ensures forall j :: 0 <= j < k ==> fork(j).Forked?
    ensures k < nproc ==> fork(k).ForkError?
  {
    ForkFailureFrom(fork, 0, nproc)
  }

  /** Only one count of created workers fits the fork outcomes. */
  lemma FirstForkFailureUnique(fork: nat -> ForkOutcome, nproc: nat, k: nat)
    requires k <= nproc
    requires forall j :: 0 <= j < k ==> fork(j).Forked?
    requires k < nproc ==> fork(k).ForkError?
    ensures k == FirstForkFailure(fork, nproc)
  {
  }

  /**
   * The parameters worker `i` receives: its spawn index, the shared sample
   * count, loop count and start reading; only spawn index 1 of the niced
   * probe lowers its priority.
   */
  function SpecFor(v: Variant, plan: Plan, nloop: nat, start: Timespec, i: nat): (spec: WorkerSpec)
    ensures spec.id == i && spec.nrecord == plan.nrecord
    ensures spec.nloopPerResol == nloop && spec.start == start
    ensures spec.lowered <==> v == NicedProbe && i == NICED_INDEX
    ensures v == Probe ==> !spec.lowered
  {
    WorkerSpec(i, plan.nrecord, nloop, start, v == NicedProbe && i == NICED_INDEX)
  }

  /**
   * Only the worker at `NICED_INDEX` of the niced probe renices, and it does
   * so first, before any sampling; no worker of the plain probe renices.
   */
  lemma ReniceOnlyAtNicedIndex(v: Variant, plan: Plan, nloop: nat, start: Timespec, j: nat, log: seq<Timespec>)
    ensures WorkerTrace(SpecFor(v, plan, nloop, start, j), log)[0] == Reniced(NICE_INCREMENT)
            <==> v == NicedProbe && j == NICED_INDEX
    ensures forall i :: 0 < i < |WorkerTrace(SpecFor(v, plan, nloop, start, j), log)| ==>
              !WorkerTrace(SpecFor(v, plan, nloop, start, j), log)[i].Reniced?
  {
    WorkerTracePhases(SpecFor(v, plan, nloop, start, j), log);
  }

  /** Stage order survives concatenation of stage-ordered runs. */
  lemma InStageOrderConcat(a: seq<Event>, b: seq<Event>)
    requires InStageOrder(a) && InStageOrder(b)
    requires forall i, j :: 0 <= i < |a| && 0 <= j < |b| ==> Stage(a[i]) <= Stage(b[j])
    ensures InStageOrder(a + b)
  {
    var ab := a + b;
    forall i, j | 0 <= i <= j < |ab|
      ensures Stage(ab[i]) <= Stage(ab[j])
    {
      if j < |a| {
        assert ab[i] == a[i] && ab[j] == a[j];
      } else if i >= |a| {
        assert ab[i] == b[i - |a|] && ab[j] == b[j - |a|];
      } else {
        assert ab[i] == a[i] && ab[j] == b[j - |a|];
      }
    }
  }

  /**
   * The parent's events from the first `fork` on, with `ncreated` the index
   * of the first failing fork: one spawn per created worker, carrying its
   * parameters and the pid its fork returned; the failed fork, if any; SIGINT
   * to exactly the created workers, and only after a failure; one wait per
   * created worker; nothing else, and in that order.
   */
  ghost predicate FanOutTrace(v: Variant, plan: Plan, nloop: nat, env: Env, events: seq<Event>) {
    && SpawnsOf(v, plan, nloop, env, events)
    && RollbackOf(plan, env, events)
    && WaitsOf(plan, env, events)
    && ShapeOf(plan, env, events)
  }

  /** Worker j is spawned with its own parameters and the pid fork j returned. */
  ghost predicate SpawnsOf(v: Variant, plan: Plan, nloop: nat, env: Env, events: seq<Event>) {
    var n := FirstForkFailure(env.fork, plan.nproc);
    var spawns := Select(events, IsSpawn);
    && |spawns| == n
    && (forall j :: 0 <= j < n ==>
          spawns[j] == Spawned(SpecFor(v, plan, nloop, env.start, j), env.fork(j).pid))
  }

  /** The failed fork, then SIGINT to every created worker, exactly when a fork fails. */
  ghost predicate RollbackOf(plan: Plan, env: Env, events: seq<Event>) {
    var n := FirstForkFailure(env.fork, plan.nproc);
    var ok := n == plan.nproc;
    var kills := Select(events, IsInterrupt);
    && Select(events, IsForkFailure) == (if ok then [] else [ForkFailed(n)])
    && |kills| == (if ok then 0 else n)
    && (forall j :: 0 <= j < |kills| ==> j < n && kills[j] == Interrupted(env.fork(j).pid, env.kill(j)))
  }

  /** One wait per created worker, each with its own outcome. */
  ghost predicate WaitsOf(plan: Plan, env: Env, events: seq<Event>) {
    var n := FirstForkFailure(env.fork, plan.nproc);
    var waits := Select(events, IsReap);
    && |waits| == n
    && (forall j :: 0 <= j < n ==> waits[j] == Reaped(env.wait(j)))
  }

  /** Nothing but fan-out events, as many as the runs above, in stage order. */
  ghost predicate ShapeOf(plan: Plan, env: Env, events: seq<Event>) {
    var n := FirstForkFailure(env.fork, plan.nproc);
    var ok := n == plan.nproc;
    && |events| == n + (if ok then 0 else 1 + n) + n
    && (forall k :: 0 <= k < |events| ==> Stage(events[k]) >= 2 && IsFanOutEvent(events[k]))
    && InStageOrder(events)
  }

  /**
   * The fan-out, rollback and wait loops of `main`. Workers are created in
   * index order until a fork fails; only then is SIGINT sent, to exactly the
   * created workers in order; then one wait per created worker follows.
   * Neither a failed kill nor a failed wait cuts its loop short.
   */
  method FanOut(v: Variant, plan: Plan, nloop: nat, env: Env)
    returns (pids: seq<Pid>, events: seq<Event>, ok: bool)
    ensures |pids| == FirstForkFailure(env.fork, plan.nproc)
    ensures forall j :: 0 <= j < |pids| ==> env.fork(j) == Forked(pids[j])
    ensures ok <==> |pids| == plan.nproc
    ensures FanOutTrace(v, plan, nloop, env, events)
  {
    var spawns, failed;
    pids, spawns, failed := ForkLoop(v, plan, nloop, env);
    ok := !failed;
    var ff: seq<Event> := if failed then [ForkFailed(|pids|)] else [];
    var kills: seq<Event> := [];
    if failed {
      kills := InterruptLoop(pids, env);
    }
    var reaps := WaitLoop(|pids|, env);
    events := spawns + ff + kills + reaps;
    FanOutSpawns(v, plan, nloop, env, pids, spawns, ff, kills, reaps);
    FanOutRollback(plan, env, pids, spawns, ff, kills, reaps);
    FanOutReaps(plan, env, pids, spawns, ff, kills, reaps);
    FanOutShape(plan, env, pids, spawns, ff, kills, reaps);
  }

  /** The fork loop: one child per index until `nproc` or the first failing fork. */
  method ForkLoop(v: Variant, plan: Plan, nloop: nat, env: Env)
    returns (pids: seq<Pid>, spawns: seq<Event>, failed: bool)
    ensures |pids| == FirstForkFailure(env.fork, plan.nproc)
    ensures forall j :: 0 <= j < |pids| ==> env.fork(j) == Forked(pids[j])
    ensures failed <==> |pids| < plan.nproc
    ensures |spawns| == |pids|
    ensures forall j :: 0 <= j < |pids| ==> spawns[j] == Spawned(SpecFor(v, plan, nloop, env.start, j), pids[j])
  {
    pids := [];
    spawns := [];
    failed := false;
    var i := 0;
    while i < plan.nproc
      invariant 0 <= i <= plan.nproc
      invariant |pids| == i
      invariant forall j :: 0 <= j < i ==> env.fork(j) == Forked(pids[j])
      invariant !failed
      invariant |spawns| == i
      invariant forall j :: 0 <= j < i ==> spawns[j] == Spawned(SpecFor(v, plan, nloop, env.start, j), pids[j])
      decreases plan.nproc - i
    {
      match env.fork(i)
      case ForkError =>
        failed := true;
        break;
      case Forked(pid) =>
        pids := pids + [pid];
        spawns := spawns + [Spawned(SpecFor(v, plan, nloop, env.start, i), pid)];
        i := i + 1;
    }
    FirstForkFailureUnique(env.fork, plan.nproc, i);
  }

  /** The rollback loop: SIGINT to every created child, whatever each kill returns. */
  method InterruptLoop(pids: seq<Pid>, env: Env) returns (kills: seq<Event>)
    ensures |kills| == |pids|
    ensures forall j :: 0 <= j < |pids| ==> kills[j] == Interrupted(pids[j], env.kill(j))
  {
    kills := [];
    var k := 0;
    while k < |pids|
      invariant 0 <= k <= |pids|
      invariant |kills| == k
      invariant forall j :: 0 <= j < k ==> kills[j] == Interrupted(pids[j], env.kill(j))
    {
      kills := kills + [Interrupted(pids[k], env.kill(k))];
      k := k + 1;
    }
  }

  /** The wait loop: one wait per created child, whatever each wait returns. */
  method WaitLoop(ncreated: nat, env: Env) returns (reaps: seq<Event>)
    ensures |reaps| == ncreated
    ensures forall j :: 0 <= j < ncreated ==> reaps[j] == Reaped(env.wait(j))
  {
    reaps := [];
    var k := 0;
    while k < ncreated
      invariant 0 <= k <= ncreated
      invariant |reaps| == k
      invariant forall j :: 0 <= j < k ==> reaps[j] == Reaped(env.wait(j))
    {
      reaps := reaps + [Reaped(env.wait(k))];
      k := k + 1;
    }
  }

  /** Only the spawn run contributes spawns: worker j with the pid of fork j. */
  lemma FanOutSpawns(v: Variant, plan: Plan, nloop: nat, env: Env, pids: seq<Pid>,
                     spawns: seq<Event>, ff: seq<Event>, kills: seq<Event>, reaps: seq<Event>)
    requires forall j :: 0 <= j < |spawns| ==> spawns[j].Spawned?
    requires forall j :: 0 <= j < |ff| ==> ff[j].ForkFailed?
    requires forall j :: 0 <= j < |kills| ==> kills[j].Interrupted?
    requires forall j :: 0 <= j < |reaps| ==> reaps[j].Reaped?
    requires |pids| == FirstForkFailure(env.fork, plan.nproc)
    requires forall j :: 0 <= j < |pids| ==> env.fork(j) == Forked(pids[j])
    requires |spawns| == |pids|
    requires forall j :: 0 <= j < |pids| ==> spawns[j] == Spawned(SpecFor(v, plan, nloop, env.start, j), pids[j])
    ensures SpawnsOf(v, plan, nloop, env, spawns + ff + kills + reaps)
  {
    assert Select(spawns + ff + kills + reaps, IsSpawn) == spawns + [] + [] + [] by {
      SelectRuns(spawns, ff, kills, reaps, IsSpawn, true, false, false, false);
    }
    assert spawns + [] + [] + [] == spawns;
  }

  /** Only the rollback contributes the failed fork and the interrupts. */
  lemma FanOutRollback(plan: Plan, env: Env, pids: seq<Pid>,
                       spawns: seq<Event>, ff: seq<Event>, kills: seq<Event>, reaps: seq<Event>)
    requires forall j :: 0 <= j < |spawns| ==> spawns[j].Spawned?
    requires forall j :: 0 <= j < |ff| ==> ff[j].ForkFailed?
    requires forall j :: 0 <= j < |kills| ==> kills[j].Interrupted?
    requires forall j :: 0 <= j < |reaps| ==> reaps[j].Reaped?
    requires |pids| == FirstForkFailure(env.fork, plan.nproc)
    requires forall j :: 0 <= j < |pids| ==> env.fork(j) == Forked(pids[j])
    requires ff == if |pids| == plan.nproc then [] else [ForkFailed(|pids|)]
    requires |kills| == if |pids| == plan.nproc then 0 else |pids|
    requires forall j :: 0 <= j < |kills| ==> kills[j] == Interrupted(pids[j], env.kill(j))
    ensures RollbackOf(plan, env, spawns + ff + kills + reaps)
  {
    assert Select(spawns + ff + kills + reaps, IsForkFailure) == ff by {
      SelectRuns(spawns, ff, kills, reaps, IsForkFailure, false, true, false, false);
      assert [] + ff + [] + [] == ff;
    }
    assert Select(spawns + ff + kills + reaps, IsInterrupt) == kills by {
      SelectRuns(spawns, ff, kills, reaps, IsInterrupt, false, false, true, false);
      assert [] + [] + kills + [] == kills;
    }
    forall j | 0 <= j < |kills|
      ensures j < |pids| && kills[j] == Interrupted(env.fork(j).pid, env.kill(j))
    {
      assert env.fork(j) == Forked(pids[j]);
    }
  }

  /** Only the wait run contributes waits, one per created worker. */
  lemma FanOutReaps(plan: Plan, env: Env, pids: seq<Pid>,
                    spawns: seq<Event>, ff: seq<Event>, kills: seq<Event>, reaps: seq<Event>)
    requires forall j :: 0 <= j < |spawns| ==> spawns[j].Spawned?
    requires forall j :: 0 <= j < |ff| ==> ff[j].ForkFailed?
    requires forall j :: 0 <= j < |kills| ==> kills[j].Interrupted?
    requires forall j :: 0 <= j < |reaps| ==> reaps[j].Reaped?
    requires |pids| == FirstForkFailure(env.fork, plan.nproc)
    requires |reaps| == |pids|
    requires forall j :: 0 <= j < |pids| ==> reaps[j] == Reaped(env.wait(j))
    ensures WaitsOf(plan, env, spawns + ff + kills + reaps)
  {
    assert Select(spawns + ff + kills + reaps, IsReap) == [] + [] + [] + reaps by {
      SelectRuns(spawns, ff, kills, reaps, IsReap, false, false, false, true);
    }
    assert [] + [] + [] + reaps == reaps;
  }

  /** The four runs hold nothing but fan-out events, as many as the loops made. */
  lemma FanOutShape(plan: Plan, env: Env, pids: seq<Pid>,
                    spawns: seq<Event>, ff: seq<Event>, kills: seq<Event>, reaps: seq<Event>)
    requires forall j :: 0 <= j < |spawns| ==> spawns[j].Spawned?
    requires forall j :: 0 <= j < |ff| ==> ff[j].ForkFailed?
    requires forall j :: 0 <= j < |kills| ==> kills[j].Interrupted?
    requires forall j :: 0 <= j < |reaps| ==> reaps[j].Reaped?
    requires |pids| == FirstForkFailure(env.fork, plan.nproc)
    requires |spawns| == |pids| && |reaps| == |pids|
    requires ff == if |pids| == plan.nproc then [] else [ForkFailed(|pids|)]
    requires |kills| == if |pids| == plan.nproc then 0 else |pids|
    ensures ShapeOf(plan, env, spawns + ff + kills + reaps)
  {
    FanOutStages(spawns, ff, kills, reaps);
  }

  /** Spawns, then the failed fork, then interrupts, then waits. */
  lemma FanOutStages(spawns: seq<Event>, ff: seq<Event>, kills: seq<Event>, reaps: seq<Event>)
    requires forall j :: 0 <= j < |spawns| ==> spawns[j].Spawned?
    requires forall j :: 0 <= j < |ff| ==> ff[j].ForkFailed?
    requires forall j :: 0 <= j < |kills| ==> kills[j].Interrupted?
    requires forall j :: 0 <= j < |reaps| ==> reaps[j].Reaped?
    ensures forall k :: 0 <= k < |spawns + ff + kills + reaps| ==>
              Stage((spawns + ff + kills + reaps)[k]) >= 2 && IsFanOutEvent((spawns + ff + kills + reaps)[k])
    ensures InStageOrder(spawns + ff + kills + reaps)
  {
    InStageOrderConcat(spawns, ff);
    InStageOrderConcat(spawns + ff, kills);
    InStageOrderConcat(spawns + ff + kills, reaps);
    var all := spawns + ff + kills + reaps;
    forall k | 0 <= k < |all|
      ensures Stage(all[k]) >= 2 && IsFanOutEvent(all[k])
    {
      if k < |spawns| {
        assert all[k] == spawns[k];
      } else if k < |spawns| + |ff| {
        assert all[k] == ff[k - |spawns|];
      } else if k < |spawns| + |ff| + |kills| {
        assert all[k] == kills[k - |spawns| - |ff|];
      } else {
        assert all[k] == reaps[k - |spawns| - |ff| - |kills|];
      }
    }
  }

  /** The successive clock readings worker `i` takes, one per sample. */
  function WorkerLog(env: Env, i: nat, nrecord: nat): seq<Timespec> {
    seq(nrecord, k requires 0 <= k < nrecord => env.reading(i, k))
  }

  /** Report lines printed across all workers' traces. */
  function TotalPrinted(workers: seq<seq<WorkerEvent>>): nat
    decreases |workers|
  {
    if |workers| == 0 then 0
    else TotalPrinted(workers[..|workers| - 1]) + |Select(workers[|workers| - 1], IsPrint)|
  }

  /** Workers that each print `n` lines print `|workers| * n` in all. */
  lemma {:induction false} TotalPrintedUniform(workers: seq<seq<WorkerEvent>>, n: nat)
    requires forall j :: 0 <= j < |workers| ==> |Select(workers[j], IsPrint)| == n
    ensures TotalPrinted(workers) == |workers| * n
    decreases |workers|
  {
    if |workers| > 0 {
      var init := workers[..|workers| - 1];
      TotalPrintedUniform(init, n);
      assert TotalPrinted(workers) == (|workers| - 1) * n + n;
    }
  }

  /**
   * Every created worker running `child_fn` on its own copy of the log
   * buffer, whose initial contents are unspecified: every slot is
   * overwritten before it is read.
   */
  method RunWorkers(v: Variant, plan: Plan, nloop: nat, env: Env, ncreated: nat)
    returns (workers: seq<seq<WorkerEvent>>)
    ensures |workers| == ncreated
    ensures forall k :: 0 <= k < ncreated ==>
              workers[k] == WorkerTrace(SpecFor(v, plan, nloop, env.start, k), WorkerLog(env, k, plan.nrecord))
    ensures TotalPrinted(workers) == ncreated * plan.nrecord
  {
    workers := [];
    var logbuf := seq(plan.nrecord, _ => Timespec(0, 0));
    var j := 0;
    while j < ncreated
      invariant 0 <= j <= ncreated
      invariant |workers| == j
      invariant forall k :: 0 <= k < j ==>
                  workers[k] == WorkerTrace(SpecFor(v, plan, nloop, env.start, k), WorkerLog(env, k, plan.nrecord))
      invariant forall k :: 0 <= k < j ==> |Select(workers[k], IsPrint)| == plan.nrecord
    {
      var spec := SpecFor(v, plan, nloop, env.start, j);
      var log, trace := RunWorker(spec, logbuf, (r: nat) => env.reading(j, r));
      assert log == WorkerLog(env, j, plan.nrecord);
      WorkerTraceActions(spec, log);
      workers := workers + [trace];
      j := j + 1;
    }
    TotalPrintedUniform(workers, plan.nrecord);
  }

  /**
   * The parent's part of `main` after both allocations: the estimation
   * lines, the fan-out with its rollback, and the waits.
   */
  method Launch(v: Variant, plan: Plan, nloop: nat, env: Env)
    returns (pids: seq<Pid>, events: seq<Event>, ok: bool)
    ensures |pids| == FirstForkFailure(env.fork, plan.nproc)
    ensures forall j :: 0 <= j < |pids| ==> env.fork(j) == Forked(pids[j])
    ensures ok <==> |pids| == plan.nproc
    ensures |events| >= 2 && events[0] == EstimationBegun && events[1] == EstimationEnded
    ensures InStageOrder(events)
    ensures FanOutTrace(v, plan, nloop, env, events[2..])
  {
    var fanEvents;
    pids, fanEvents, ok := FanOut(v, plan, nloop, env);
    events := WithEstimation(fanEvents);
  }

  /** Whether a run gets past validation and both allocations. */
  ghost predicate Launches(v: Variant, args: seq<int>, env: Env) {
    Validate(v, args).Success? && env.logAllocOk && env.pidsAllocOk
  }

  /**
   * `main` of either probe, with the trace each created worker follows
   * when no SIGINT cuts it short. A refused command line, a failed log
   * allocation or a failed pid-table allocation stops the run with a
   * failure status before any fork. Otherwise the calibrated iteration
   * count and the start reading reach every worker unchanged, and the run
   * exits successfully exactly when every fork succeeded (a failed kill or
   * wait only warns), in which case `nproc * nrecord` report lines appear.
   */
  method Run(v: Variant, args: seq<int>, env: Env)
    returns (events: seq<Event>, workers: seq<seq<WorkerEvent>>, status: ExitStatus)
    requires Validate(v, args).Success? && env.logAllocOk ==> DiffNsec(env.calibBefore, env.calibAfter) > 0
    ensures InStageOrder(events)
    ensures Validate(v, args).Failure? ==>
              events == [Rejected(Validate(v, args).error)] && workers == [] && status == ExitFailure
    ensures Validate(v, args).Success? && !env.logAllocOk ==>
              events == [LogAllocFailed] && workers == [] && status == ExitFailure
    ensures Validate(v, args).Success? && env.logAllocOk && !env.pidsAllocOk ==>
              events == [EstimationBegun, EstimationEnded, PidsAllocFailed] && workers == [] && status == ExitFailure
    ensures status == ExitSuccess <==>
              Launches(v, args, env) &&
              FirstForkFailure(env.fork, Validate(v, args).value.nproc) == Validate(v, args).value.nproc
    ensures Launches(v, args, env) ==>
              var plan := Validate(v, args).value;
              var nloop := NloopPerResol(LoopsPerMsec(env.calibBefore, env.calibAfter), plan.resol);
              var n := FirstForkFailure(env.fork, plan.nproc);
              && |events| >= 2 && events[0] == EstimationBegun && events[1] == EstimationEnded
              && FanOutTrace(v, plan, nloop, env, events[2..])
              && |workers| == n
              && (forall j :: 0 <= j < n ==>
                    workers[j] == WorkerTrace(SpecFor(v, plan, nloop, env.start, j), WorkerLog(env, j, plan.nrecord)))
    ensures status == ExitSuccess ==>
              TotalPrinted(workers) == Validate(v, args).value.nproc * Validate(v, args).value.nrecord
  {
    workers := [];
    var validated := Validate(v, args);
    if validated.Failure? {
      events := [Rejected(validated.error)];
      status := ExitFailure;
      return;
    }
    var plan := validated.value;
    if !env.logAllocOk {
      events := [LogAllocFailed];
      status := ExitFailure;
      return;
    }
    var nloop := NloopPerResol(LoopsPerMsec(env.calibBefore, env.calibAfter), plan.resol);
    if !env.pidsAllocOk {
      events := [EstimationBegun, EstimationEnded, PidsAllocFailed];
      status := ExitFailure;
      return;
    }
    var pids, ok;
    pids, events, ok := Launch(v, plan, nloop, env);
    workers := RunWorkers(v, plan, nloop, env, |pids|);
    status := if ok then ExitSuccess else ExitFailure;
  }

  /**
   * A launch in which every fork succeeds: after the two progress lines come
   * nproc spawns and nproc waits, each wait with its own outcome, and no
   * failed fork, no SIGINT and nothing else.
   */
  lemma SuccessfulLaunchTrace(v: Variant, plan: Plan, nloop: nat, env: Env, events: seq<Event>)
    requires |events| >= 2 && events[0] == EstimationBegun && events[1] == EstimationEnded
    requires FanOutTrace(v, plan, nloop, env, events[2..])
    requires FirstForkFailure(env.fork, plan.nproc) == plan.nproc
    ensures |events| == 2 + 2 * plan.nproc
    ensures Select(events, IsForkFailure) == [] && Select(events, IsInterrupt) == []
    ensures |Select(events, IsSpawn)| == plan.nproc && |Select(events, IsReap)| == plan.nproc
    ensures forall j :: 0 <= j < plan.nproc ==> Select(events, IsReap)[j] == Reaped(env.wait(j))
  {
    var fan := events[2..];
    assert events == [EstimationBegun, EstimationEnded] + fan;
    SelectAfterEstimation(fan, IsForkFailure);
    SelectAfterEstimation(fan, IsInterrupt);
    SelectAfterEstimation(fan, IsReap);
    SelectAfterEstimation(fan, IsSpawn);
  }

  /** The two progress lines of the calibration in front of the fan-out. */
  function WithEstimation(fanEvents: seq<Event>): (events: seq<Event>)
    requires forall k :: 0 <= k < |fanEvents| ==> Stage(fanEvents[k]) >= 2
    requires InStageOrder(fanEvents)
    ensures |events| == |fanEvents| + 2 && events[0] == EstimationBegun && events[1] == EstimationEnded
    ensures InStageOrder(events)
    ensures Select(events, IsSpawn) == Select(fanEvents, IsSpawn)
    ensures Select(events, IsInterrupt) == Select(fanEvents, IsInterrupt)
    ensures Select(events, IsReap) == Select(fanEvents, IsReap)
    ensures Select(events, IsForkFailure) == Select(fanEvents, IsForkFailure)
    ensures events[2..] == fanEvents
  {
    InStageOrderConcat([EstimationBegun, EstimationEnded], fanEvents);
    SelectAfterEstimation(fanEvents, IsForkFailure);
    SelectAfterEstimation(fanEvents, IsSpawn);
    SelectAfterEstimation(fanEvents, IsInterrupt);
    SelectAfterEstimation(fanEvents, IsReap);
    [EstimationBegun, EstimationEnded] + fanEvents
  }

  /** The progress lines are not spawns, interrupts or waits. */
  lemma SelectAfterEstimation(fanEvents: seq<Event>, keep: Event -> bool)
    requires !keep(EstimationBegun) && !keep(EstimationEnded)
    ensures Select([EstimationBegun, EstimationEnded] + fanEvents, keep) == Select(fanEvents, keep)
  {
    var prologue := [EstimationBegun, EstimationEnded];
    SelectConcat(prologue, fanEvents, keep);
    SelectNone(prologue, keep);
    assert [] + Select(fanEvents, keep) == Select(fanEvents, keep);
  }
}

=== FILE: percent_overflow.dfy ===
/**
 * The progress percentage as the C source computes it, in 32-bit `int`
 * arithmetic: `(i + 1) * 100 / nrecord`. The product overflows once
 * `nrecord` exceeds 21 474 836, which the argument checks allow. The
 * report uses the intended value, `Progress.Percent`.
 */
module PercentOverflow {
  import opened Config
  import opened Progress

  const INT_MAX: int := 0x7FFF_FFFF
  const INT_MODULUS: int := 0x1_0000_0000

  /** Two's-complement wrap-around of a mathematical integer into `int`. */
  function Int32Wrap(x: int): (w: int)
    ensures -INT_MAX - 1 <= w <= INT_MAX
    ensures (w - x) % INT_MODULUS == 0
  {
    (x + INT_MAX + 1) % INT_MODULUS - (INT_MAX + 1)
  }

  /**
   * C division of `int`s, truncating toward zero (section 6.5.5 of the C
   * standard): the remainder is smaller than the divisor in magnitude and
   * never has the opposite sign of the dividend.
   */
  function CDiv(a: int, b: int): (q: int)
    requires b > 0
    ensures -b < a - q * b < b
    ensures a >= 0 ==> a - q * b >= 0
    ensures a < 0 ==> a - q * b <= 0
  {
    if a >= 0 then a / b else -((-a) / b)
  }

  /** `(i + 1) * 100 / nrecord` with the product wrapped into `int`. */
  function PercentAsWritten(i: nat, nrecord: nat): (p: int)
    requires i < nrecord <= INT_MAX
    ensures (i + 1) * 100 <= INT_MAX ==> p == Percent(i, nrecord)
  {
    CDiv(Int32Wrap((i + 1) * 100), nrecord)
  }

  /**
   * `sched 1 30000000 1` is accepted with 30 000 000 samples, yet its last
   * report line, whose intended progress is 100%, shows -43%.
   */
  lemma PercentAsWrittenOverflows()
    ensures Validate(Probe, [1, 30_000_000, 1]).Success?
    ensures Validate(Probe, [1, 30_000_000, 1]).value.nrecord == 30_000_000
    ensures PercentAsWritten(29_999_999, 30_000_000) == -43
    ensures Percent(29_999_999, 30_000_000) == 100
  {
    assert Int32Wrap(3_000_000_000) == -1_294_967_296;
    PercentLast(30_000_000);
  }

  /** Up to 21 474 836 samples the source and the intended value agree. */
  lemma PercentAsWrittenAgrees(i: nat, nrecord: nat)
    requires i < nrecord <= INT_MAX / 100
    ensures PercentAsWritten(i, nrecord) == Percent(i, nrecord)
  {
  }
}

=== FILE: progress.dfy ===
/** The progress percentage each report line carries. */
module Progress {
  import opened Arith

  /** Progress of sample `i` out of `nrecord`: `(i + 1) * 100 / nrecord`. */
  function Percent(i: nat, nrecord: nat): (p: nat)
    requires i < nrecord
    ensures p <= 100
    ensures p * nrecord <= (i + 1) * 100 < (p + 1) * nrecord
  {
    var p := (i + 1) * 100 / nrecord;
    FloorDiv((i + 1) * 100, nrecord);
    assert p * nrecord < 101 * nrecord;
    MulCancel(p, 101, nrecord);
    p
  }

  /** The last sample reports exactly 100 percent. */
  lemma PercentLast(nrecord: nat)
    requires nrecord > 0
    ensures Percent(nrecord - 1, nrecord) == 100
  {
    var p := Percent(nrecord - 1, nrecord);
    assert p * nrecord <= nrecord * 100 < (p + 1) * nrecord;
    MulCancel(p, 101, nrecord);
    MulCancel(99, p, nrecord);
  }

  /** Progress never goes backwards. */
  lemma PercentMonotone(i: nat, j: nat, nrecord: nat)
    requires i <= j < nrecord
    ensures Percent(i, nrecord) <= Percent(j, nrecord)
  {
    DivMonotone((i + 1) * 100, (j + 1) * 100, nrecord);
  }

  /** Five samples report 20, 40, 60, 80 and 100 percent. */
  lemma PercentFiveSamples()
    ensures seq(5, i requires 0 <= i < 5 => Percent(i, 5)) == [20, 40, 60, 80, 100]
  {
  }
}

=== FILE: worker.dfy ===
/**
 * The worker process: `child_fn` (fill the private timestamp log by index,
 * one clock reading after each busy-loop quantum, then print one report
 * line per sample and exit), preceded in the niced probe by `nice(5)` on
 * the worker that was configured to lower its priority.
 */
module Worker {
  import opened Base
  import opened Clock
  import opened Config
  import opened Progress

  /** Everything a worker inherits from `main` at `fork` time. */
  datatype WorkerSpec = WorkerSpec(
    id: nat,              // spawn index, printed in place of a pid
    nrecord: nat,         // number of samples
    nloopPerResol: nat,   // busy-loop iterations per sample
    start: Timespec,      // the start reading shared by all workers
    lowered: bool)        // calls `nice(NICE_INCREMENT)` before sampling

  /** One report line: `PID: id  elapsed: ms  progress: percent%`. */
  datatype Record = Record(id: nat, elapsedMs: nat, percent: nat)

  /** What a worker does, in order. */
  datatype WorkerEvent =
    | Reniced(increment: int)            // nice(increment)
    | Loaded(nloop: nat)                 // load(nloop)
    | Stored(index: nat, ts: Timespec)   // buf[index] = clock reading
    | Printed(rec: Record)               // one report line
    | Exited                             // exit(EXIT_SUCCESS)

  predicate IsLoad(e: WorkerEvent) { e.Loaded? }
  predicate IsStore(e: WorkerEvent) { e.Stored? }
  predicate IsPrint(e: WorkerEvent) { e.Printed? }

  /** Lifecycle stage of an event: renice, sampling, reporting, exit. */
  function Phase(e: WorkerEvent): nat {
    match e
    case Reniced(_) => 0
    case Loaded(_) => 1
    case Stored(_, _) => 1
    case Printed(_) => 2
    case Exited => 3
  }

  /** The report `child_fn` prints for a filled log, one record per slot. */
  function Report(spec: WorkerSpec, log: seq<Timespec>): (lines: seq<Record>)
    ensures |lines| == |log|
  {
    seq(|log|, i requires 0 <= i < |log| =>
      Record(spec.id, ElapsedMs(spec.start, log[i]), Percent(i, |log|)))
  }

  /**
   * Line `i` of the report carries the spawn index, the elapsed time of
   * reading `i` in whole milliseconds (the floor of its distance from
   * `start` whenever that fits an `unsigned long`), and the floor of
   * (i + 1) * 100 / n as its percentage.
   */
  lemma ReportLines(spec: WorkerSpec, log: seq<Timespec>, i: nat)
    requires i < |log|
    ensures Report(spec, log)[i].id == spec.id
    ensures var p := Report(spec, log)[i].percent;
              p * |log| <= (i + 1) * 100 < (p + 1) * |log|
    ensures var d, ms := DiffNsec(spec.start, log[i]), Report(spec, log)[i].elapsedMs;
              0 <= d < ULONG_MODULUS ==> ms * NSECS_PER_MSEC <= d < (ms + 1) * NSECS_PER_MSEC
  {
  }

  /**
   * Every line carries the spawn index; percentages stay within 0..100,
   * never decrease, and the last one is exactly 100.
   */
  lemma ReportProgress(spec: WorkerSpec, log: seq<Timespec>)
    ensures forall i :: 0 <= i < |log| ==> Report(spec, log)[i].id == spec.id
    ensures forall i :: 0 <= i < |log| ==> Report(spec, log)[i].percent <= 100
    ensures forall i, j :: 0 <= i <= j < |log| ==>
              Report(spec, log)[i].percent <= Report(spec, log)[j].percent
    ensures |log| > 0 ==> Report(spec, log)[|log| - 1].percent == 100
  {
    var lines := Report(spec, log);
    forall i, j | 0 <= i <= j < |log|
      ensures lines[i].percent <= lines[j].percent
    {
      PercentMonotone(i, j, |log|);
    }
    if |log| > 0 {
      PercentLast(|log|);
    }
  }

  /** Readings of a worker that never run backwards and start no earlier than `start`. */
  ghost predicate Chronological(start: Timespec, log: seq<Timespec>) {
    && Normal(start)
    && (forall i :: 0 <= i < |log| ==> Normal(log[i]) && NotAfter(start, log[i]))
    && (forall i, j :: 0 <= i <= j < |log| ==> NotAfter(log[i], log[j]))
    && (forall i :: 0 <= i < |log| ==> DiffNsec(start, log[i]) < ULONG_MODULUS)
  }

  /** On chronological readings the printed elapsed times never decrease. */
  lemma ReportElapsedMonotone(spec: WorkerSpec, log: seq<Timespec>)
    requires Chronological(spec.start, log)
    ensures forall i, j :: 0 <= i <= j < |log| ==>
              Report(spec, log)[i].elapsedMs <= Report(spec, log)[j].elapsedMs
  {
    var lines := Report(spec, log);
    forall i, j | 0 <= i <= j < |log|
      ensures lines[i].elapsedMs <= lines[j].elapsedMs
    {
      DiffNsecOrder(spec.start, log[i]);
      DiffNsecOrder(log[i], log[j]);
      DiffNsecAdditive(spec.start, log[i], log[j]);
      ElapsedMsMonotone(spec.start, log[i], log[j]);
    }
  }

  /** `nice(NICE_INCREMENT)` when the worker is the one to be lowered. */
  function Prologue(spec: WorkerSpec): seq<WorkerEvent> {
    if spec.lowered then [Reniced(NICE_INCREMENT)] else []
  }

  /** The sampling loop over the first `|log|` slots: a load, then a store. */
  function SampleEvents(nloop: nat, log: seq<Timespec>): seq<WorkerEvent>
    decreases |log|
  {
    if |log| == 0 then []
    else SampleEvents(nloop, log[..|log| - 1]) + [Loaded(nloop), Stored(|log| - 1, log[|log| - 1])]
  }

  /** The reporting loop. */
  function PrintEvents(lines: seq<Record>): seq<WorkerEvent> {
    seq(|lines|, i requires 0 <= i < |lines| => Printed(lines[i]))
  }

  /** The whole life of a worker whose log ends up as `log`. */
  function WorkerTrace(spec: WorkerSpec, log: seq<Timespec>): seq<WorkerEvent> {
    Prologue(spec) + SampleEvents(spec.nloopPerResol, log) + PrintEvents(Report(spec, log)) + [Exited]
  }

  /** The stores the sampling loop makes: slot k receives reading k. */
  function StoreSeq(log: seq<Timespec>): seq<WorkerEvent> {
    seq(|log|, k requires 0 <= k < |log| => Stored(k, log[k]))
  }

  /** The sampling loop alternates a load and a store, slot by slot. */
  lemma {:induction false} SampleEventsShape(nloop: nat, log: seq<Timespec>)
    ensures |SampleEvents(nloop, log)| == 2 * |log|
    ensures forall k :: 0 <= k < |log| ==>
              SampleEvents(nloop, log)[2 * k] == Loaded(nloop) &&
              SampleEvents(nloop, log)[2 * k + 1] == Stored(k, log[k])
    decreases |log|
  {
    if |log| > 0 {
      var init := log[..|log| - 1];
      SampleEventsShape(nloop, init);
      forall k | 0 <= k < |log| - 1
        ensures log[k] == init[k]
      {
      }
    }
  }

  /** Sampling stores into slots 0, 1, ..., in increasing order, each once. */
  lemma {:induction false} SampleEventsStores(nloop: nat, log: seq<Timespec>)
    ensures Select(SampleEvents(nloop, log), IsStore) == StoreSeq(log)
    ensures Select(SampleEvents(nloop, log), IsLoad) == seq(|log|, _ => Loaded(nloop))
    ensures Select(SampleEvents(nloop, log), IsPrint) == []
    decreases |log|
  {
    if |log| > 0 {
      var n := |log|;
      var init := log[..n - 1];
      var pair := [Loaded(nloop), Stored(n - 1, log[n - 1])];
      SampleEventsStores(nloop, init);
      SelectConcat(SampleEvents(nloop, init), pair, IsStore);
      SelectConcat(SampleEvents(nloop, init), pair, IsLoad);
      SelectConcat(SampleEvents(nloop, init), pair, IsPrint);
      assert Select(pair, IsStore) == [Stored(n - 1, log[n - 1])] by {
        assert pair[..1] == [Loaded(nloop)];
      }
      assert Select(pair, IsLoad) == [Loaded(nloop)] by {
        assert pair[..1] == [Loaded(nloop)];
      }
      SelectNone(pair, IsPrint);
      assert StoreSeq(log) == StoreSeq(init) + [Stored(n - 1, log[n - 1])];
      assert seq(n, _ => Loaded(nloop)) == seq(n - 1, _ => Loaded(nloop)) + [Loaded(nloop)];
    }
  }

  /** Every sampling event is in the sampling phase. */
  lemma SampleEventsPhase(nloop: nat, log: seq<Timespec>)
    ensures forall k :: 0 <= k < |SampleEvents(nloop, log)| ==> Phase(SampleEvents(nloop, log)[k]) == 1
  {
    SampleEventsShape(nloop, log);
    var s := SampleEvents(nloop, log);
    forall k | 0 <= k < |s|
      ensures Phase(s[k]) == 1
    {
      var q := k / 2;
      assert k == 2 * q || k == 2 * q + 1;
    }
  }

  /** The stores of a worker's life are those of its sampling loop. */
  lemma WorkerTraceStores(spec: WorkerSpec, log: seq<Timespec>)
    ensures Select(WorkerTrace(spec, log), IsStore) == StoreSeq(log)
  {
    var pro, smp, prn := Prologue(spec), SampleEvents(spec.nloopPerResol, log), PrintEvents(Report(spec, log));
    var ex: seq<WorkerEvent> := [Exited];
    assert Select(pro, IsStore) == [] by { SelectNone(pro, IsStore); }
    assert Select(smp, IsStore) == StoreSeq(log) by { SampleEventsStores(spec.nloopPerResol, log); }
    assert Select(prn, IsStore) == [] by { SelectNone(prn, IsStore); }
    assert Select(ex, IsStore) == [] by { SelectNone(ex, IsStore); }
    SelectFour(pro, smp, prn, ex, IsStore);
    assert [] + StoreSeq(log) + [] + [] == StoreSeq(log);
  }

  /** The loads of a worker's life are those of its sampling loop. */
  lemma WorkerTraceLoads(spec: WorkerSpec, log: seq<Timespec>)
    ensures Select(WorkerTrace(spec, log), IsLoad) == seq(|log|, _ => Loaded(spec.nloopPerResol))
  {
    var pro, smp, prn := Prologue(spec), SampleEvents(spec.nloopPerResol, log), PrintEvents(Report(spec, log));
    var ex: seq<WorkerEvent> := [Exited];
    var loads := seq(|log|, _ => Loaded(spec.nloopPerResol));
    assert Select(pro, IsLoad) == [] by { SelectNone(pro, IsLoad); }
    assert Select(smp, IsLoad) == loads by { SampleEventsStores(spec.nloopPerResol, log); }
    assert Select(prn, IsLoad) == [] by { SelectNone(prn, IsLoad); }
    assert Select(ex, IsLoad) == [] by { SelectNone(ex, IsLoad); }
    SelectFour(pro, smp, prn, ex, IsLoad);
    assert [] + loads + [] + [] == loads;
  }

  /** The lines a worker prints are its report. */
  lemma WorkerTracePrints(spec: WorkerSpec, log: seq<Timespec>)
    ensures Select(WorkerTrace(spec, log), IsPrint) == PrintEvents(Report(spec, log))
  {
    var pro, smp, prn := Prologue(spec), SampleEvents(spec.nloopPerResol, log), PrintEvents(Report(spec, log));
    var ex: seq<WorkerEvent> := [Exited];
    assert Select(pro, IsPrint) == [] by { SelectNone(pro, IsPrint); }
    assert Select(smp, IsPrint) == [] by { SampleEventsStores(spec.nloopPerResol, log); }
    assert Select(prn, IsPrint) == prn by { SelectAll(prn, IsPrint); }
    assert Select(ex, IsPrint) == [] by { SelectNone(ex, IsPrint); }
    SelectFour(pro, smp, prn, ex, IsPrint);
    assert [] + [] + prn + [] == prn;
  }

  /**
   * The log is written in slot order, each slot once with its own reading;
   * there is one load of `nloopPerResol` iterations per slot and one report
   * line per slot, and nothing else is loaded, stored or printed.
   */
  lemma WorkerTraceActions(spec: WorkerSpec, log: seq<Timespec>)
    ensures Select(WorkerTrace(spec, log), IsStore) == StoreSeq(log)
    ensures Select(WorkerTrace(spec, log), IsLoad) == seq(|log|, _ => Loaded(spec.nloopPerResol))
    ensures Select(WorkerTrace(spec, log), IsPrint) == PrintEvents(Report(spec, log))
  {
    WorkerTraceStores(spec, log);
    WorkerTraceLoads(spec, log);
    WorkerTracePrints(spec, log);
  }

  /**
   * A worker moves forward through renice, sampling, reporting and exit,
   * never back; it renices (first thing) exactly when it is the lowered one.
   */
  lemma WorkerTracePhases(spec: WorkerSpec, log: seq<Timespec>)
    ensures forall i, j :: 0 <= i <= j < |WorkerTrace(spec, log)| ==>
              Phase(WorkerTrace(spec, log)[i]) <= Phase(WorkerTrace(spec, log)[j])
    ensures WorkerTrace(spec, log)[|WorkerTrace(spec, log)| - 1] == Exited
    ensures spec.lowered <==> WorkerTrace(spec, log)[0] == Reniced(NICE_INCREMENT)
    ensures forall i :: 0 < i < |WorkerTrace(spec, log)| ==> !WorkerTrace(spec, log)[i].Reniced?
  {
    var t := WorkerTrace(spec, log);
    var pro, smp, prn := Prologue(spec), SampleEvents(spec.nloopPerResol, log), PrintEvents(Report(spec, log));
    SampleEventsPhase(spec.nloopPerResol, log);
    var a, b, c := |pro|, |pro| + |smp|, |pro| + |smp| + |prn|;
    assert |t| == c + 1;
    forall i | 0 <= i < |t|
      ensures Phase(t[i]) == (if i < a then 0 else if i < b then 1 else if i < c then 2 else 3)
    {
      if i < a {
        assert t[i] == pro[i];
      } else if i < b {
        assert t[i] == smp[i - a];
      } else if i < c {
        assert t[i] == prn[i - b];
      } else {
        assert t[i] == Exited;
      }
    }
    if !spec.lowered && |t| > 0 {
      assert Phase(t[0]) != 0 || a > 0;
    }
  }

  /**
   * `child_fn` (with the niced probe's `nice` call in front): fills a copy
   * of the inherited buffer slot by slot with this worker's successive clock
   * readings, then prints the report and exits. The buffer keeps its length,
   * and its prior contents are irrelevant: every slot is overwritten.
   */
  method RunWorker(spec: WorkerSpec, buf: seq<Timespec>, reading: nat -> Timespec)
    returns (log: seq<Timespec>, trace: seq<WorkerEvent>)
    requires |buf| == spec.nrecord
    ensures |log| == |buf|
    ensures forall i :: 0 <= i < |log| ==> log[i] == reading(i)
    ensures trace == WorkerTrace(spec, log)
  {
    var sampling, report;
    log, sampling := SampleLoop(spec.nloopPerResol, buf, reading);
    report := ReportLoop(spec, log);
    trace := Prologue(spec) + sampling + report + [Exited];
  }

  /**
   * The first loop of `child_fn`: for each slot in increasing order, one
   * load, then the next clock reading stored into that slot.
   */
  method SampleLoop(nloop: nat, buf: seq<Timespec>, reading: nat -> Timespec)
    returns (log: seq<Timespec>, events: seq<WorkerEvent>)
    ensures |log| == |buf|
    ensures forall i :: 0 <= i < |log| ==> log[i] == reading(i)
    ensures events == SampleEvents(nloop, log)
  {
    events := [];
    log := buf;
    var i := 0;
    while i < |buf|
      invariant 0 <= i <= |buf|
      invariant |log| == |buf|
      invariant forall k :: 0 <= k < i ==> log[k] == reading(k)
      invariant events == SampleEvents(nloop, log[..i])
    {
      events := events + [Loaded(nloop)];
      var ts := reading(i);
      var prev := log;
      log := log[i := ts];
      assert log[..i + 1][..i] == prev[..i];
      events := events + [Stored(i, ts)];
      i := i + 1;
    }
    assert log[..i] == log;
  }

  /** The second loop of `child_fn`: one report line per slot, in slot order. */
  method ReportLoop(spec: WorkerSpec, log: seq<Timespec>) returns (events: seq<WorkerEvent>)
    ensures events == PrintEvents(Report(spec, log))
  {
    events := [];
    var i := 0;
    while i < |log|
      invariant 0 <= i <= |log|
      invariant |events| == i
      invariant forall k :: 0 <= k < i ==> events[k] == Printed(Report(spec, log)[k])
    {
      events := events + [Printed(Record(spec.id, ElapsedMs(spec.start, log[i]), Percent(i, |log|)))];
      i := i + 1;
    }
  }
}
